=== FILE: README.md ===
# Reverse-date RGB toy: a verified model of the date-to-colour core

The program paints the terminal in a colour derived from a calendar date.
It takes the year modulo 100, the month and the day. It writes each one in
decimal, with a leading zero for a single digit, and reverses the digits.
It reads the result back as an integer and reduces each channel to
`abs(x) % 256`. The colour is emitted as a 24-bit SGR foreground sequence
`ESC[38;2;R;G;Bm` (ECMA-48 with the ITU-T T.416 colour parameters), then
the text, then `ESC[38;2;255;255;255m`, which sets the foreground back to
white. A batch mode walks every date of 1900..1999, using a fixed month-length
table with no leap years.

The model is pure Dafny. It has one module per concept of `main.py`:

- `Wrappers`: `Option`, whose `None` stands for a Python `ValueError`.
- `Decimal`: `str(n)` and the digits-only form of `int(s)`.
- `Reversal`: `reverse_string`, and `int(reverse_string(n))` on naturals.
- `Colors`: `RGB_Color` and `color_of_date`.
- `Ansi`: `rgb_text`, plus a parser of its output that serves as its inverse.
  The parser and its helpers (`SplitAt`, `ReadChannel`, `ReadColorAndText`)
  exist only to state and prove that round trip; they model nothing in the
  program.
- `Calendar`: `days_in_month`, the `calendar.mdays` table.
- `Century`: the date enumeration of `cycle_century`, both as recursive
  functions and as the three nested loops written as methods.
- `Prompt`: the inclusive range check of `input_int_in_range`.

## Model

| member | source | states |
|---|---|---|
| Decimal.Show | main.py:27-29 | `str(n)` is a non-empty digit string, one character exactly for n < 10, two exactly for 10..99, with no leading zero |
| Decimal.ShowInt | main.py:27-29 | `str(x)` is in canonical form, with no leading zero, and `int(str(x)) == x` for x >= 0; for negative x, `str(x)` is '-' followed by a string `int()` reads as -x, and `int()` rejects the whole |
| Decimal.ShowParse | main.py:48 | on a non-empty digit string without a superfluous leading zero, `int(s)` succeeds and `str(int(s)) == s`: the converse of `Decimal.ParseShow` |
| Decimal.ParseShow | main.py:48 | `int(str(n)) == n` for every natural n |
| Decimal.ValueLeadingZero | main.py:48 | leading zeros do not change the value `int()` reads, as in "007" → 7 |
| Reversal.Reverse | main.py:30 | `s[::-1]` keeps the length and puts element `|s|-1-i` at position i |
| Reversal.ReverseInvolution | main.py:30 | reversing twice restores any sequence |
| Reversal.ReverseString | main.py:16-30 | an int in 0..9 gives its digit followed by '0'; any other int gives the reverse of `str(x)`; a string gives its reverse |
| Reversal.ReverseStringInvolution | main.py:29-30 | on strings `reverse_string` is an involution |
| Reversal.ReverseStringExamples | main.py:20-24 | the docstring examples: 'Hiya' → 'ayiH', 23 → '32', 700 → '007', 5 → '50', and int('007') = 7 |
| Reversal.ReverseInt | main.py:47-48 | for a natural n, `int(reverse_string(n))` never raises and returns the value of the reversed digits |
| Reversal.ReverseNegativeDoesNotParse | main.py:26-30 | a negative int reverses to a string ending in '-', which `int()` rejects |
| Reversal.ReverseStringTwoDigits | main.py:26-30 | for n in 0..99 the reversed string is the units digit followed by the tens digit |
| Reversal.ReverseIntTwoDigits | main.py:26-30 | for n in 0..99, int(reverse_string(n)) = 10·(n mod 10) + n div 10 |
| Reversal.ReverseIntInvolution | main.py:26-30 | the digit reversal maps 0..99 into 0..99 and is its own inverse there |
| Colors.Abs | main.py:38-40 | `abs(x)` is a natural equal to x or to -x |
| Colors.Clamp | main.py:38-40 | `abs(x) % 256` lies in 0..255, is congruent to abs(x) modulo 256, and leaves a value already in 0..255 unchanged |
| Colors.ClampUnique | main.py:38-40 | the clamp is the only value in 0..255 congruent to abs(x) modulo 256 |
| Colors.RgbColor | main.py:33-40 | every channel of an `RGB_Color` is in 0..255 and congruent to the magnitude of its argument; in-range arguments are stored unchanged |
| Colors.RgbColorIdempotent | main.py:33-40 | rebuilding a colour from its own channels gives the same colour |
| Colors.ColorOfDate | main.py:42-49 | every colour of a date has all three channels in 0..255 |
| Colors.ColorOfDateUsesYearMod100 | main.py:47 | the colour depends on the year only through `year % 100` |
| Colors.ColorOfDateUnclamped | main.py:47-49 | for two-digit months and days every channel is below 100, so the mod-256 clamp never changes the reversed values |
| Colors.ColorOfDateSwapsDigits | main.py:47-49 | each channel is its field (year mod 100, month, day) with its two digits swapped |
| Colors.ColorOfDateInjective | main.py:47-49 | within one century, two dates with two-digit month and day share a colour only if they are the same date |
| Colors.ColorOfJanuary2nd84 | main.py:47-49 | 2 January of a year ending in 84 (1984) gives (48, 10, 20) |
| Colors.ColorOfDecember25th00 | main.py:47-49 | 25 December of a year ending in 00 gives (0, 21, 52) |
| Ansi.ResetIsWhiteForeground | main.py:97 | the trailing sequence is the foreground sequence for (255, 255, 255) |
| Ansi.RgbText | main.py:92-97 | the output is the foreground sequence for the colour, then the text unchanged, then the reset to white, and nothing else |
| Ansi.ParseRgbTextRoundTrip | main.py:92-97 | for every in-range colour and every text, the colour and the text can be read back from the output |
| Ansi.RgbTextInjective | main.py:92-97 | different colours or texts never give the same output |
| Calendar.DaysInMonth | main.py:9-13 | months 1..12 have 28..31 days, February has 28 in every year, and index 0 is the table's placeholder 0 |
| Calendar.DaysInMonthMatchesRhyme | main.py:9-13 | the table agrees with the rule "30 days in April, June, September and November, 28 in February, 31 otherwise" |
| Calendar.DaysInMonthIgnoresYear | main.py:9-13 | the month length never depends on the year |
| Calendar.YearLength | main.py:9-13 | months 1..12 add up to 365 days |
| Century.DaysUpTo | main.py:115 | days 1..k of one month form a sequence of length k |
| Century.MonthsUpTo | main.py:114-115 | months 1..k of one year have as many dates as their table lengths add up to |
| Century.YearsUpTo | main.py:113-115 | a run of n whole years has 365·n dates |
| Century.DaysUpToMembers | main.py:115 | the dates of a month's loop are exactly days 1..k of that month |
| Century.MonthsUpToMembers | main.py:114-115 | the dates of a year's loop are exactly the table's dates of months 1..k |
| Century.YearsUpToMembers | main.py:113-115 | the dates of the year loop are exactly the table's dates of those years |
| Century.DaysUpToAscending | main.py:115 | a month's dates come in strictly ascending order |
| Century.MonthsUpToAscending | main.py:114-115 | a year's dates come in strictly ascending order |
| Century.YearsUpToAscending | main.py:113-115 | the enumeration is strictly ascending in (year, month, day) order |
| Century.YearsUpToNoLeapDay | main.py:113-116 | no 29 February is ever produced |
| Century.YearBlocks | main.py:113-115 | the k-th block of 365 dates is exactly year first+k, month by month |
| Century.YearsPrefix | main.py:113-115 | the dates of the first k years are a prefix of the dates of the first n years |
| Century.YearsColors | main.py:113-117 | within one century all colours of the enumeration are below 100 per channel and pairwise distinct |
| Century.WithinCentury | main.py:113-117 | for years within one century: 365 dates per year, ascending, exactly the table's dates, no 29 February, no colour twice |
| Century.CycleDays | main.py:115-116 | the innermost loop yields day 1..days_in_month of the month, in order |
| Century.CycleMonths | main.py:114-116 | the middle loop yields all dates of months 1..12 of the year, in order |
| Century.CycleYearsLoop | main.py:113-115 | the outer loop over a run of years yields exactly the year-by-year enumeration, so each year is a block of 365 dates by `Century.YearBlocks` |
| Century.CycleYears | main.py:113-117 | the outer loop over a run of years yields 365 dates per year, strictly ascending, exactly the table's dates, no 29 February, all colours distinct |
| Century.CycleCentury | main.py:109-117 | `cycle_century` visits exactly 36,500 dates of 1900..1999 in ascending order, each admitted date once, no 29 February, no colour twice |
| Prompt.PyRangeMembers | main.py:67 | `v in range(a, b)` holds exactly when a <= v < b |
| Prompt.AcceptAnswer | main.py:60-72 | an answer is accepted exactly when it parses as an integer within the inclusive range, and then as that integer; otherwise the program asks again |
| Prompt.MonthPromptExamples | main.py:67 | for the month prompt 1..12, "abc" and "13" are refused and "12" is accepted |

## Left out

- Terminal output: `print_color_block`, `Terminal.width` and `Terminal.height`, and every `print` call. These are I/O. The default width and height of `print_color_block` are read once, when the function is defined (main.py:100).
- `format_date_string`: it depends on the `ctime` text of Python's `datetime`, which is not part of this model.
- `date_builder`: it uses `random`, `input` and the clock. Its random branch draws a year in 0..99. `datetime.date` refuses year 0, but that branch is not modelled.
- The menu loop `main`, the blocking read of `input_int_in_range` and its recursive re-prompt. Only the validation of one answer is modelled, as `Prompt.AcceptAnswer`.
- Prompt.AcceptAnswer: parses digits only. It does not model Python `int()`'s acceptance of signs, surrounding whitespace or underscores, so answers such as "-3" or " 5" are refused here.
- Decimal.Parse: the same digits-only form of `int()`. It is enough for `color_of_date`, whose strings are always ASCII digits. It accepts only ASCII '0'..'9', while Python's `int()` also accepts other Unicode decimal digits. It also has no length limit, while CPython 3.11 and later raise `ValueError` past 4300 digits.
- Decimal.Show: renders naturals of any size. CPython 3.11 and later raise `ValueError` when converting an int of more than 4300 digits to a string, so `reverse_string` on such an int raises, while `Reversal.ReverseString` returns its reversed digits. `color_of_date` never reaches that size.
- Colors.ColorOfDate: takes month and day as naturals. It is not restricted further, because `datetime.date` already guarantees month 1..12 and a valid day. Only `Colors.ColorOfDateUnclamped` and the lemmas after it assume two-digit fields.
- Calendar.DaysInMonth: ignores the year, as the source does, so leap years are not modelled. Indices outside -13..12, where Python raises `IndexError`, are excluded by its precondition.
- Century.CycleYears: returns the dates a year loop visits and does not render them. The colour of each line is covered only through `Colors.ColorOfDate`; the caption comes from `format_date_string`, which is left out.

=== FILE: ansi.dfy ===
/**
 `rgb_text` (main.py): text wrapped in the 24-bit "set foreground colour"
 control sequence of ECMA-48 / ITU-T T.416 (SGR 38;2;R;G;B), followed by a
 sequence that sets the foreground back to white. A parser of that shape
 is its inverse.
 */
module Ansi {
  import opened Wrappers
  import opened Decimal
  import opened Colors

  const Esc: char := '\U{1B}'

  /** Control sequence introducer and SGR parameters up to the red channel. */
  const ForegroundIntro: string := [Esc] + "[38;2;"

  /** The sequence `rgb_text` appends after the text: foreground set to white. */
  const ResetToWhite: string := [Esc] + "[38;2;255;255;255m"

  /** The SGR sequence that selects colour `c` as the foreground. */
  function SetForeground(c: Color): (s: string)
    ensures |ForegroundIntro| < |s| && s[..|ForegroundIntro|] == ForegroundIntro
  {
    var params := ShowInt(c.red) + ";" + ShowInt(c.green) + ";" + ShowInt(c.blue) + "m";
    assert (ForegroundIntro + params)[..|ForegroundIntro|] == ForegroundIntro;
    ForegroundIntro + params
  }

  /** The closing sequence is the foreground sequence for white. */
  lemma ResetIsWhiteForeground()
    ensures SetForeground(Color(255, 255, 255)) == ResetToWhite
  {
    assert Show(255) == "255";
  }

  /**
   `rgb_text(c, text)`: the foreground sequence for `c`, the text unchanged,
   then the reset to white.
   */
  function RgbText(c: Color, text: string): (s: string)
    ensures |s| == |SetForeground(c)| + |text| + |ResetToWhite|
    ensures s[..|ForegroundIntro|] == ForegroundIntro
    ensures s[..|SetForeground(c)|] == SetForeground(c)
    ensures s[|SetForeground(c)|..|SetForeground(c)| + |text|] == text
    ensures s[|s| - |ResetToWhite|..] == ResetToWhite
  {
    var head := SetForeground(c);
    var s := head + text + ResetToWhite;
    assert s[..|ForegroundIntro|] == head[..|ForegroundIntro|];
    assert s[..|head|] == head;
    assert s[|head|..|head| + |text|] == text;
    s
  }

  /** Splits `s` at the first occurrence of `sep`; `None` when there is none. */
  function SplitAt(s: string, sep: char): (r: Option<(string, string)>)
    ensures r.None? <==> sep !in s
    ensures r.Some? ==> sep !in r.value.0 && s == r.value.0 + [sep] + r.value.1
  {
    if |s| == 0 then None
    else if s[0] == sep then Some(([], s[1..]))
    else match SplitAt(s[1..], sep)
      case None => None
      case Some(p) =>
        assert s == [s[0]] + s[1..];
        Some(([s[0]] + p.0, p.1))
  }

  /** Splitting at the first separator finds the part before it, however the rest looks. */
  lemma {:induction false} SplitAtFirst(a: string, sep: char, b: string)
    requires sep !in a
    ensures SplitAt(a + [sep] + b, sep) == Some((a, b))
    decreases |a|
  {
    var s := a + [sep] + b;
    if |a| == 0 {
      assert s[1..] == b;
    } else {
      assert s[0] == a[0];
      assert s[1..] == a[1..] + [sep] + b;
      SplitAtFirst(a[1..], sep, b);
      assert [s[0]] + a[1..] == a;
    }
  }

  /** Reads a decimal channel value terminated by `sep`, and what follows the separator. */
  function ReadChannel(s: string, sep: char): (r: Option<(nat, string)>) {
    var p :- SplitAt(s, sep);
    var v :- Parse(p.0);
    Some((v, p.1))
  }

  /** A channel written by `Show` and followed by its separator reads back exactly. */
  lemma ReadChannelOfShow(n: nat, sep: char, rest: string)
    requires !IsDigit(sep)
    ensures ReadChannel(Show(n) + [sep] + rest, sep) == Some((n, rest))
  {
    assert sep !in Show(n);
    SplitAtFirst(Show(n), sep, rest);
    ParseShow(n);
  }

  /** Decodes `R;G;Bm` followed by the text. */
  function ReadColorAndText(body: string): (r: Option<(Color, string)>) {
    var r :- ReadChannel(body, ';');
    var g :- ReadChannel(r.1, ';');
    var b :- ReadChannel(g.1, 'm');
    Some((Color(r.0, g.0, b.0), b.1))
  }

  /**
   Decodes a string of the shape `rgb_text` produces into its colour and
   its text; `None` when the string does not have that shape.
   */
  function ParseRgbText(s: string): (r: Option<(Color, string)>) {
    if |s| < |ForegroundIntro| + |ResetToWhite|
       || s[..|ForegroundIntro|] != ForegroundIntro
       || s[|s| - |ResetToWhite|..] != ResetToWhite
    then None
    else ReadColorAndText(s[|ForegroundIntro|..|s| - |ResetToWhite|])
  }

  /** A string framed by the introducer and the reset is decoded from what lies between. */
  lemma ParseFramed(body: string)
    ensures ParseRgbText(ForegroundIntro + body + ResetToWhite) == ReadColorAndText(body)
  {
    var s := ForegroundIntro + body + ResetToWhite;
    assert s[..|ForegroundIntro|] == ForegroundIntro;
    assert s[|s| - |ResetToWhite|..] == ResetToWhite;
    assert s[|ForegroundIntro|..|s| - |ResetToWhite|] == body;
  }

  /** The channels and text written after the introducer read back exactly. */
  lemma ReadColorAndTextRoundTrip(c: Color, text: string)
    requires IsColor(c)
    ensures ReadColorAndText(Show(c.red) + ";" + Show(c.green) + ";" + Show(c.blue) + "m" + text)
            == Some((c, text))
  {
    var afterG := Show(c.blue) + "m" + text;
    var afterR := Show(c.green) + ";" + afterG;
    assert Show(c.red) + ";" + Show(c.green) + ";" + Show(c.blue) + "m" + text
        == Show(c.red) + ";" + afterR;
    assert Show(c.green) + ";" + afterG == Show(c.green) + [';'] + afterG;
    ReadChannelOfShow(c.red, ';', afterR);
    ReadChannelOfShow(c.green, ';', afterG);
    ReadChannelOfShow(c.blue, 'm', text);
  }

  /** For every colour with channels in range and every text, parsing `rgb_text`'s output recovers both. */
  lemma ParseRgbTextRoundTrip(c: Color, text: string)
    requires IsColor(c)
    ensures ParseRgbText(RgbText(c, text)) == Some((c, text))
  {
    var body := Show(c.red) + ";" + Show(c.green) + ";" + Show(c.blue) + "m" + text;
    ShowIntOfNat(c.red);
    ShowIntOfNat(c.green);
    ShowIntOfNat(c.blue);
    assert RgbText(c, text) == ForegroundIntro + body + ResetToWhite;
    ParseFramed(body);
    ReadColorAndTextRoundTrip(c, text);
  }

  /** Different colours or different texts never render to the same string. */
  lemma RgbTextInjective(c: Color, t: string, d: Color, u: string)
    requires IsColor(c) && IsColor(d)
    requires RgbText(c, t) == RgbText(d, u)
    ensures c == d && t == u
  {
    ParseRgbTextRoundTrip(c, t);
    ParseRgbTextRoundTrip(d, u);
  }
}

=== FILE: calendar.dfy ===
/**
 `days_in_month` (main.py): a lookup in the standard library's fixed
 month-length table `calendar.mdays`, which has no leap years.
 */
module Calendar {

  /** `calendar.mdays`: entry 0 is a placeholder, entries 1..12 are January..December. */
  const MonthDays: seq<nat> := [0, 31, 28, 31, 30, 31, 30, 31, 31, 30, 31, 30, 31]

  /**
   `days_in_month(year, month)`: `calendar.mdays[month]`. The year is not
   consulted. The index follows Python list indexing: -13..12 are accepted,
   a negative index counts from the end, anything else raises `IndexError`.
   */
  function DaysInMonth(year: int, month: int): (n: nat)
    requires -13 <= month <= 12
    ensures 1 <= month <= 12 ==> 28 <= n <= 31
    ensures month == 2 ==> n == 28
    ensures month == 0 ==> n == 0
  {
    if month >= 0 then MonthDays[month] else MonthDays[13 + month]
  }

  /** The calendar rhyme: thirty days have September, April, June and November. */
  function RhymeLength(month: int): (n: nat)
    requires 1 <= month <= 12
  {
    if month == 2 then 28
    else if month == 4 || month == 6 || month == 9 || month == 11 then 30
    else 31
  }

  /** The table agrees with the rhyme for every month of every year. */
  lemma DaysInMonthMatchesRhyme(year: int, month: int)
    requires 1 <= month <= 12
    ensures DaysInMonth(year, month) == RhymeLength(month)
  {
  }

  /** No year is a leap year: the month length never depends on the year. */
  lemma DaysInMonthIgnoresYear(y: int, z: int, month: int)
    requires -13 <= month <= 12
    ensures DaysInMonth(y, month) == DaysInMonth(z, month)
  {
  }

  /** Days in months 1..k of a year. */
  function DaysThroughMonth(k: nat): (n: nat)
    requires k <= 12
  {
    if k == 0 then 0 else DaysThroughMonth(k - 1) + DaysInMonth(0, k)
  }

  /** Every year has 365 days. */
  lemma YearLength()
    ensures DaysThroughMonth(12) == 365
  {
    assert DaysThroughMonth(3) == 90;
    assert DaysThroughMonth(6) == 181;
    assert DaysThroughMonth(9) == 273;
  }
}

=== FILE: century.dfy ===
/**
 The date enumeration of `cycle_century` (main.py): years 1900..1999,
 months 1..12, days 1..days_in_month, with the printing removed.
 */
module Century {
  import opened Calendar
  import opened Colors

  /** Lexicographic order on (year, month, day). */
  predicate Before(a: Date, b: Date) {
    a.year < b.year
    || (a.year == b.year && a.month < b.month)
    || (a.year == b.year && a.month == b.month && a.day < b.day)
  }

  predicate StrictlyAscending(s: seq<Date>) {
    forall i, j :: 0 <= i < j < |s| ==> Before(s[i], s[j])
  }

  /** A date the table admits: month 1..12, day 1..days_in_month. */
  predicate InTable(d: Date) {
    1 <= d.month <= 12 && 1 <= d.day <= DaysInMonth(d.year, d.month)
  }

  /** Joining two ascending runs, the first wholly before the second, stays ascending. */
  lemma AscendingConcat(a: seq<Date>, b: seq<Date>)
    requires StrictlyAscending(a) && StrictlyAscending(b)
    requires forall x, y :: x in a && y in b ==> Before(x, y)
    ensures StrictlyAscending(a + b)
  {
    var s := a + b;
    forall i, j | 0 <= i < j < |s| ensures Before(s[i], s[j]) {
      if j < |a| {
        assert s[i] == a[i] && s[j] == a[j];
      } else if i >= |a| {
        assert s[i] == b[i - |a|] && s[j] == b[j - |a|];
      } else {
        assert s[i] in a && s[j] in b;
      }
    }
  }

  /** Days 1..k of month m of year y, in order. */
  function DaysUpTo(y: int, m: nat, k: nat): (s: seq<Date>)
    ensures |s| == k
  {
    if k == 0 then [] else DaysUpTo(y, m, k - 1) + [Date(y, m, k)]
  }

  /** Every day of months 1..k of year y, in order. */
  function MonthsUpTo(y: int, k: nat): (s: seq<Date>)
    requires k <= 12
    ensures |s| == DaysThroughMonth(k)
  {
    if k == 0 then [] else MonthsUpTo(y, k - 1) + DaysUpTo(y, k, DaysInMonth(y, k))
  }

  /** Every day of the years lo..hi-1, in order. */
  function YearsUpTo(lo: int, hi: int): (s: seq<Date>)
    ensures lo <= hi ==> |s| == 365 * (hi - lo)
    decreases hi - lo
  {
    if hi <= lo then []
    else
      YearLength();
      YearsUpTo(lo, hi - 1) + MonthsUpTo(hi - 1, 12)
  }

  /** The days of a month are exactly those numbered 1..k. */
  lemma {:induction false} DaysUpToMembers(y: int, m: nat, k: nat)
    ensures forall d :: d in DaysUpTo(y, m, k) <==> d.year == y && d.month == m && 1 <= d.day <= k
  {
    if k > 0 {
      DaysUpToMembers(y, m, k - 1);
    }
  }

  /** The days of months 1..k are exactly the table's dates of those months. */
  lemma {:induction false} MonthsUpToMembers(y: int, k: nat)
    requires k <= 12
    ensures forall d :: d in MonthsUpTo(y, k) <==> d.year == y && d.month <= k && InTable(d)
  {
    if k > 0 {
      MonthsUpToMembers(y, k - 1);
      DaysUpToMembers(y, k, DaysInMonth(y, k));
    }
  }

  /** The days of years lo..hi-1 are exactly the table's dates of those years. */
  lemma {:induction false} YearsUpToMembers(lo: int, hi: int)
    ensures forall d :: d in YearsUpTo(lo, hi) <==> lo <= d.year < hi && InTable(d)
    decreases hi - lo
  {
    if lo < hi {
      YearsUpToMembers(lo, hi - 1);
      MonthsUpToMembers(hi - 1, 12);
    }
  }

  /** The days of a month come in increasing order. */
  lemma {:induction false} DaysUpToAscending(y: int, m: nat, k: nat)
    ensures StrictlyAscending(DaysUpTo(y, m, k))
  {
    if k > 0 {
      DaysUpToAscending(y, m, k - 1);
      DaysUpToMembers(y, m, k - 1);
      AscendingConcat(DaysUpTo(y, m, k - 1), [Date(y, m, k)]);
    }
  }

  /** The days of months 1..k come in increasing order. */
  lemma {:induction false} MonthsUpToAscending(y: int, k: nat)
    requires k <= 12
    ensures StrictlyAscending(MonthsUpTo(y, k))
  {
    if k > 0 {
      MonthsUpToAscending(y, k - 1);
      MonthsUpToMembers(y, k - 1);
      DaysUpToAscending(y, k, DaysInMonth(y, k));
      DaysUpToMembers(y, k, DaysInMonth(y, k));
      AscendingConcat(MonthsUpTo(y, k - 1), DaysUpTo(y, k, DaysInMonth(y, k)));
    }
  }

  /** The days of years lo..hi-1 come in increasing order. */
  lemma {:induction false} YearsUpToAscending(lo: int, hi: int)
    ensures StrictlyAscending(YearsUpTo(lo, hi))
    decreases hi - lo
  {
    if lo < hi {
      YearsUpToAscending(lo, hi - 1);
      YearsUpToMembers(lo, hi - 1);
      MonthsUpToAscending(hi - 1, 12);
      MonthsUpToMembers(hi - 1, 12);
      AscendingConcat(YearsUpTo(lo, hi - 1), MonthsUpTo(hi - 1, 12));
    }
  }

  /** No year of a run of whole years contains a 29 February. */
  lemma YearsUpToNoLeapDay(lo: int, hi: int, y: int)
    ensures Date(y, 2, 29) !in YearsUpTo(lo, hi)
  {
    YearsUpToMembers(lo, hi);
  }

  /** The k-th block of 365 dates is the k-th year, month by month. */
  lemma YearBlocks(lo: int, hi: int, k: nat)
    requires lo + k < hi
    ensures YearsUpTo(lo, hi)[365 * k..365 * (k + 1)] == MonthsUpTo(lo + k, 12)
  {
    YearsPrefix(lo, hi - lo, k + 1);
    var s := YearsUpTo(lo, lo + k);
    YearLength();
    assert YearsUpTo(lo, lo + k + 1) == s + MonthsUpTo(lo + k, 12);
    assert |s| == 365 * k;
  }

  /** The dates of the first k years are a prefix of the dates of the first n years. */
  lemma {:induction false} YearsPrefix(lo: int, n: nat, k: nat)
    requires k <= n
    ensures YearsUpTo(lo, lo + n)[..365 * k] == YearsUpTo(lo, lo + k)
    decreases n - k
  {
    if k < n {
      YearsPrefix(lo, n - 1, k);
      var s := YearsUpTo(lo, lo + n - 1);
      var t := MonthsUpTo(lo + n - 1, 12);
      assert YearsUpTo(lo, lo + n) == s + t;
      assert |s| == 365 * (n - 1);
      assert 365 * k <= |s|;
      assert (s + t)[..365 * k] == s[..365 * k];
    }
  }

  /**
   Within one century (years sharing their value divided by 100) every date
   gets a colour with all channels below 100, and no two dates share one.
   */
  lemma YearsColors(lo: int, hi: int)
    requires lo <= hi && lo / 100 == (hi - 1) / 100
    ensures forall d :: d in YearsUpTo(lo, hi) ==>
      ColorOfDate(d).red < 100 && ColorOfDate(d).green < 100 && ColorOfDate(d).blue < 100
    ensures forall i, j :: 0 <= i < j < |YearsUpTo(lo, hi)| ==>
      ColorOfDate(YearsUpTo(lo, hi)[i]) != ColorOfDate(YearsUpTo(lo, hi)[j])
  {
    var s := YearsUpTo(lo, hi);
    YearsUpToMembers(lo, hi);
    YearsUpToAscending(lo, hi);
    forall d | d in s
      ensures ColorOfDate(d).red < 100 && ColorOfDate(d).green < 100 && ColorOfDate(d).blue < 100
    {
      ColorOfDateUnclamped(d);
    }
    forall i, j | 0 <= i < j < |s| ensures ColorOfDate(s[i]) != ColorOfDate(s[j]) {
      assert s[i] in s && s[j] in s;
      assert Before(s[i], s[j]);
      SameCentury(lo, hi, s[i].year, s[j].year);
      ColorOfDateInjective(s[i], s[j]);
    }
  }

  /** Years between two years of one century belong to that century. */
  lemma SameCentury(lo: int, hi: int, y: int, z: int)
    requires lo / 100 == (hi - 1) / 100
    requires lo <= y < hi && lo <= z < hi
    ensures y / 100 == z / 100
  {
  }

  /** The facts `cycle_century`'s enumeration promises for a run of years; distinct colours need the years to lie in one century. */
  lemma WithinCentury(lo: int, hi: int)
    requires lo <= hi
    ensures |YearsUpTo(lo, hi)| == 365 * (hi - lo)
    ensures StrictlyAscending(YearsUpTo(lo, hi))
    ensures forall d :: d in YearsUpTo(lo, hi) <==> lo <= d.year < hi && InTable(d)
    ensures forall y :: Date(y, 2, 29) !in YearsUpTo(lo, hi)
    ensures lo / 100 == (hi - 1) / 100 ==> forall i, j :: 0 <= i < j < |YearsUpTo(lo, hi)| ==>
      ColorOfDate(YearsUpTo(lo, hi)[i]) != ColorOfDate(YearsUpTo(lo, hi)[j])
  {
    var s := YearsUpTo(lo, hi);
    assert StrictlyAscending(s) by {
      YearsUpToAscending(lo, hi);
    }
    assert forall d :: d in s <==> lo <= d.year < hi && InTable(d) by {
      YearsUpToMembers(lo, hi);
    }
    assert forall y :: Date(y, 2, 29) !in s by {
      forall y ensures Date(y, 2, 29) !in s {
        YearsUpToNoLeapDay(lo, hi, y);
      }
    }
    if lo / 100 == (hi - 1) / 100 {
      assert forall i, j :: 0 <= i < j < |s| ==> ColorOfDate(s[i]) != ColorOfDate(s[j]) by {
        YearsColors(lo, hi);
      }
    }
  }

  /** The innermost loop of `cycle_century`: days 1..days_in_month(year, month). */
  method CycleDays(year: int, month: nat) returns (block: seq<Date>)
    requires 1 <= month <= 12
    ensures block == DaysUpTo(year, month, DaysInMonth(year, month))
  {
    block := [];
    var day := 1;
    while day < DaysInMonth(year, month) + 1
      invariant 1 <= day <= DaysInMonth(year, month) + 1
      invariant block == DaysUpTo(year, month, day - 1)
    {
      block := block + [Date(year, month, day)];
      day := day + 1;
    }
  }

  /** The middle loop of `cycle_century`: months 1..12 of one year. */
  method CycleMonths(year: int) returns (block: seq<Date>)
    ensures block == MonthsUpTo(year, 12)
  {
    block := [];
    var month := 1;
    while month < 13
      invariant 1 <= month <= 13
      invariant block == MonthsUpTo(year, month - 1)
    {
      var days := CycleDays(year, month);
      block := block + days;
      month := month + 1;
    }
  }

  /**
   The outer loop of `cycle_century` over the years first..end-1, each
   through its months and days, collecting the date of each iteration
   instead of printing it.
   */
  method CycleYearsLoop(first: int, end: int) returns (dates: seq<Date>)
    requires first <= end
    ensures dates == YearsUpTo(first, end)
  {
    dates := [];
    var year := first;
    while year < end
      invariant first <= year <= end
      invariant dates == YearsUpTo(first, year)
    {
      var block := CycleMonths(year);
      dates := dates + block;
      year := year + 1;
    }
  }

  /**
   What the outer loop yields for the years first..end-1: 365 dates per
   year in strictly ascending order, exactly the dates the table admits,
   never a 29 February, and, when the years lie in one century (the only
   case the colour clause needs), no colour twice.
   */
  method CycleYears(first: int, end: int) returns (dates: seq<Date>)
    requires first <= end
    ensures |dates| == 365 * (end - first)
    ensures StrictlyAscending(dates)
    ensures forall d :: d in dates <==> first <= d.year < end && InTable(d)
    ensures forall y :: Date(y, 2, 29) !in dates
    ensures first / 100 == (end - 1) / 100 ==>
      forall i, j :: 0 <= i < j < |dates| ==> ColorOfDate(dates[i]) != ColorOfDate(dates[j])
  {
    dates := CycleYearsLoop(first, end);
    WithinCentury(first, end);
  }

  /**
   `cycle_century`: the years `range(1900, 2000)`. It visits 36,500 dates
   in strictly ascending order: each date of 1900..1999 the table admits
   exactly once, never a 29 February, and no colour twice.
   */
  method CycleCentury() returns (dates: seq<Date>)
    ensures |dates| == 36500
    ensures StrictlyAscending(dates)
    ensures forall d :: d in dates <==> 1900 <= d.year < 2000 && InTable(d)
    ensures forall y :: Date(y, 2, 29) !in dates
    ensures forall i, j :: 0 <= i < j < |dates| ==> ColorOfDate(dates[i]) != ColorOfDate(dates[j])
  {
    dates := CycleYears(1900, 2000);
    assert 1900 / 100 == (2000 - 1) / 100;
  }
}

=== FILE: colors.dfy ===
/**
 `RGB_Color` and `color_of_date` (main.py): a date's fields, digit-reversed,
 become the red, green and blue channels of a 24-bit colour.
 */
module Colors {
  import opened Reversal

  /** A `datetime.date`: only the three fields the colour is computed from. */
  datatype Date = Date(year: int, month: nat, day: nat)

  /** An `RGB_Color` object: its `red`, `green` and `blue` attributes. */
  datatype Color = Color(red: int, green: int, blue: int)

  predicate IsChannel(x: int) {
    0 <= x < 256
  }

  predicate IsColor(c: Color) {
    IsChannel(c.red) && IsChannel(c.green) && IsChannel(c.blue)
  }

  /** Python's `abs`. */
  function Abs(x: int): (a: nat)
    ensures a == x || a == -x
  {
    if x < 0 then -x else x
  }

  /** One channel of `RGB_Color.__init__`: `abs(x) % 256`. */
  function Clamp(x: int): (v: int)
    ensures IsChannel(v)
    ensures (v - Abs(x)) % 256 == 0
    ensures IsChannel(x) ==> v == x
  {
    Abs(x) % 256
  }

  /**
   `RGB_Color(r, g, b)`: each channel is the unique value in [0, 255]
   congruent to the magnitude of its argument modulo 256, so a value
   already in range is stored unchanged.
   */
  function RgbColor(r: int, g: int, b: int): (c: Color)
    ensures IsColor(c)
    ensures (c.red - Abs(r)) % 256 == 0
    ensures (c.green - Abs(g)) % 256 == 0
    ensures (c.blue - Abs(b)) % 256 == 0
    ensures IsChannel(r) && IsChannel(g) && IsChannel(b) ==> c == Color(r, g, b)
  {
    Color(Clamp(r), Clamp(g), Clamp(b))
  }

  /** Building a colour from a colour's own channels changes nothing. */
  lemma RgbColorIdempotent(r: int, g: int, b: int)
    ensures var c := RgbColor(r, g, b); RgbColor(c.red, c.green, c.blue) == c
  {
  }

  /** A channel is fixed by its range and its residue: the clamp has no other choice. */
  lemma ClampUnique(x: int, v: int)
    requires IsChannel(v) && (v - Abs(x)) % 256 == 0
    ensures v == Clamp(x)
  {
    var w := Clamp(x);
    assert (v - w) % 256 == 0 by {
      assert v - w == (v - Abs(x)) - (w - Abs(x));
    }
  }

  /**
   `color_of_date`: the year modulo 100, the month and the day, each
   digit-reversed and read back as an integer, then clamped.
   */
  function ColorOfDate(d: Date): (c: Color)
    ensures IsColor(c)
  {
    RgbColor(ReverseInt(d.year % 100), ReverseInt(d.month), ReverseInt(d.day))
  }

  /** The colour sees the year only through its last two digits. */
  lemma ColorOfDateUsesYearMod100(d: Date, e: Date)
    requires d.year % 100 == e.year % 100 && d.month == e.month && d.day == e.day
    ensures ColorOfDate(d) == ColorOfDate(e)
  {
  }

  /**
   For two-digit months and days (every real month and day) each reversed
   field stays below 100, so the clamp leaves the channels as they are.
   */
  lemma ColorOfDateUnclamped(d: Date)
    requires d.month < 100 && d.day < 100
    ensures ColorOfDate(d) == Color(ReverseInt(d.year % 100), ReverseInt(d.month), ReverseInt(d.day))
    ensures ColorOfDate(d).red < 100 && ColorOfDate(d).green < 100 && ColorOfDate(d).blue < 100
  {
    ReverseIntBelow100(d.year % 100);
    ReverseIntBelow100(d.month);
    ReverseIntBelow100(d.day);
  }

  /** For two-digit months and days each channel is its field with the two digits swapped. */
  lemma ColorOfDateSwapsDigits(d: Date)
    requires d.month < 100 && d.day < 100
    ensures var y := d.year % 100;
      ColorOfDate(d) == Color(SwapDigits(y), SwapDigits(d.month), SwapDigits(d.day))
  {
    var y := d.year % 100;
    ColorOfDateUnclamped(d);
    ReverseIntTwoDigits(y);
    ReverseIntTwoDigits(d.month);
    ReverseIntTwoDigits(d.day);
  }

  /** Two years with the same century and the same last two digits are the same year. */
  lemma YearFromCenturyAndDigits(a: int, b: int)
    requires a / 100 == b / 100 && a % 100 == b % 100
    ensures a == b
  {
  }

  /** The digit reversal on [0, 99] is one-to-one. */
  lemma ReverseIntOneToOne(m: nat, n: nat)
    requires m < 100 && n < 100 && ReverseInt(m) == ReverseInt(n)
    ensures m == n
  {
    ReverseIntInvolution(m);
    ReverseIntInvolution(n);
  }

  /** Two dates of one century with two-digit month and day share a colour only if they are equal. */
  lemma ColorOfDateInjective(d: Date, e: Date)
    requires d.month < 100 && d.day < 100 && e.month < 100 && e.day < 100
    requires d.year / 100 == e.year / 100
    ensures ColorOfDate(d) == ColorOfDate(e) ==> d == e
  {
    ColorOfDateUnclamped(d);
    ColorOfDateUnclamped(e);
    if ColorOfDate(d) == ColorOfDate(e) {
      ReverseIntOneToOne(d.year % 100, e.year % 100);
      ReverseIntOneToOne(d.month, e.month);
      ReverseIntOneToOne(d.day, e.day);
      YearFromCenturyAndDigits(d.year, e.year);
    }
  }

  /** Reads off a date's colour from its swapped digits; the worked examples below go through it. */
  lemma ColorOfDateIs(d: Date, c: Color)
    requires d.month < 100 && d.day < 100
    requires var y := d.year % 100;
      c == Color(SwapDigits(y), SwapDigits(d.month), SwapDigits(d.day))
    ensures ColorOfDate(d) == c
  {
    ColorOfDateSwapsDigits(d);
  }

  /** Worked example: 2 January of any year ending in 84 (1984, say) gives (48, 10, 20). */
  lemma ColorOfJanuary2nd84(d: Date)
    requires d.year % 100 == 84 && d.month == 1 && d.day == 2
    ensures ColorOfDate(d) == Color(48, 10, 20)
  {
    ColorOfDateIs(d, Color(48, 10, 20));
  }

  /** Worked example: 25 December of any year ending in 00 gives (0, 21, 52). */
  lemma ColorOfDecember25th00(d: Date)
    requires d.year % 100 == 0 && d.month == 12 && d.day == 25
    ensures ColorOfDate(d) == Color(0, 21, 52)
  {
    ColorOfDateIs(d, Color(0, 21, 52));
  }
}

=== FILE: decimal.dfy ===
/**
 Decimal rendering and parsing of integers: Python's `str(n)` on an `int`
 and `int(s)` on a string of ASCII digits. Only the digits-only form of
 `int(s)` is modelled (leading zeros allowed, no sign, no whitespace).
 */
module Decimal {
  import opened Wrappers

  predicate IsDigit(c: char) {
    '0' <= c <= '9'
  }

  predicate AllDigits(s: string) {
    forall i :: 0 <= i < |s| ==> IsDigit(s[i])
  }

  /** No superfluous leading zero: a lone "0" is fine, "07" is not. */
  predicate NoLeadingZero(s: string) {
    |s| <= 1 || s[0] != '0'
  }

  function DigitValue(c: char): (d: nat)
    requires IsDigit(c)
    ensures d < 10
  {
    c as int - '0' as int
  }

  /** The character that renders the digit `d`. */
  function DigitChar(d: nat): (c: char)
    requires d < 10
    ensures IsDigit(c)
    ensures DigitValue(c) == d
  {
    ('0' as int + d) as char
  }

  /** `str(n)` for a non-negative integer `n`: its shortest decimal form. */
  function Show(n: nat): (s: string)
    ensures 1 <= |s|
    ensures AllDigits(s)
    ensures |s| == 1 <==> n < 10
    ensures |s| == 2 <==> 10 <= n < 100
    ensures |s| > 1 ==> s[0] != '0'
    decreases n
  {
    if n < 10 then [DigitChar(n)] else Show(n / 10) + [DigitChar(n % 10)]
  }

  /**
   `str(x)` for any integer: the canonical decimal, with no superfluous
   leading zero, and a minus sign in front of negative values.
   */
  function ShowInt(x: int): (s: string)
    ensures x >= 0 ==> Parse(s) == Some(x) && NoLeadingZero(s)
    ensures x < 0 ==> |s| >= 2 && s[0] == '-' && Parse(s) == None && Parse(s[1..]) == Some(-x)
    ensures x < 0 ==> NoLeadingZero(s[1..])
  {
    if x < 0 then
      ParseShow(-x);
      var s := "-" + Show(-x);
      assert s[1..] == Show(-x);
      s
    else
      ParseShow(x);
      Show(x)
  }

  /**
   On naturals `ShowInt` is `Show`: a canonical digit string that parses
   to x can only be `Show(x)`.
   */
  lemma ShowIntOfNat(x: nat)
    ensures ShowInt(x) == Show(x)
  {
    ShowParse(ShowInt(x));
  }

  /** The number a string of digits denotes, most significant digit first. */
  function Value(s: string): (v: nat)
    requires AllDigits(s)
    decreases |s|
  {
    if |s| == 0 then 0 else 10 * Value(s[..|s| - 1]) + DigitValue(s[|s| - 1])
  }

  /** `int(s)` on the digits-only form: `None` is the `ValueError` Python raises. */
  function Parse(s: string): (r: Option<nat>)
    ensures r.Some? <==> 0 < |s| && AllDigits(s)
    ensures r.Some? ==> r.value == Value(s)
  {
    if 0 < |s| && AllDigits(s) then Some(Value(s)) else None
  }

  /**
   `str(int(s)) == s` for every digit string without a superfluous leading
   zero: on such strings `Parse` is the inverse of `Show`.
   */
  lemma ShowParse(s: string)
    requires 0 < |s| && AllDigits(s) && NoLeadingZero(s)
    ensures Parse(s).Some? && Show(Parse(s).value) == s
  {
    ShowValue(s);
  }

  /** A digit string that does not start with '0' denotes a positive number. */
  lemma {:induction false} ValueBound(s: string)
    requires 0 < |s| && AllDigits(s) && s[0] != '0'
    ensures Value(s) > 0
    decreases |s|
  {
    if |s| > 1 {
      ValueBound(s[..|s| - 1]);
    }
  }

  /** Every digit character is rendered back by `DigitChar` of its value. */
  lemma DigitCharOfValue(c: char)
    requires IsDigit(c)
    ensures DigitChar(DigitValue(c)) == c
  {
  }

  /** `str(int(s)) == s` for a digit string in shortest form: the converse of `ParseShow`. */
  lemma {:induction false} ShowValue(s: string)
    requires 0 < |s| && AllDigits(s) && NoLeadingZero(s)
    ensures Show(Value(s)) == s
    decreases |s|
  {
    var c := s[|s| - 1];
    DigitCharOfValue(c);
    if |s| == 1 {
      assert Value(s) == DigitValue(c) by {
        assert s[..0] == [];
      }
      assert s == [c];
    } else {
      var t := s[..|s| - 1];
      assert t[0] == s[0];
      ValueBound(t);
      ShowValue(t);
      var v := Value(s);
      assert v == 10 * Value(t) + DigitValue(c);
      assert v / 10 == Value(t) && v % 10 == DigitValue(c);
      assert s == t + [c];
    }
  }

  /** Reading back what `Show` wrote gives the number that was written. */
  lemma {:induction false} ValueOfShow(n: nat)
    ensures Value(Show(n)) == n
    decreases n
  {
    if n >= 10 {
      var s := Show(n);
      assert s[..|s| - 1] == Show(n / 10);
      ValueOfShow(n / 10);
    }
  }

  /** `int(str(n)) == n` for every non-negative `n`. */
  lemma ParseShow(n: nat)
    ensures Parse(Show(n)) == Some(n)
  {
    ValueOfShow(n);
  }

  /** Leading zeros do not change the value `int()` reads. */
  lemma {:induction false} ValueLeadingZero(s: string)
    requires AllDigits(s)
    ensures AllDigits("0" + s)
    ensures Value("0" + s) == Value(s)
    decreases |s|
  {
    var t := "0" + s;
    assert AllDigits(t) by {
      forall i | 0 <= i < |t| ensures IsDigit(t[i]) {
        if i > 0 { assert t[i] == s[i - 1]; }
      }
    }
    if |s| > 0 {
      assert t[..|t| - 1] == "0" + s[..|s| - 1];
      ValueLeadingZero(s[..|s| - 1]);
    }
  }

  /** A two-character digit string denotes ten times its first digit plus its second. */
  lemma ValueOfPair(a: char, b: char)
    requires IsDigit(a) && IsDigit(b)
    ensures AllDigits([a, b])
    ensures Value([a, b]) == 10 * DigitValue(a) + DigitValue(b)
  {
    assert [a, b][..1] == [a];
    assert [a][..0] == [];
    assert Value([a]) == DigitValue(a);
  }

  /** The two-digit decimal form of a number in [10, 99]. */
  lemma ShowTwoDigits(n: nat)
    requires 10 <= n < 100
    ensures Show(n) == [DigitChar(n / 10), DigitChar(n % 10)]
  {
  }
}

=== FILE: prompt.dfy ===
/**
 The validation step of `input_int_in_range` (main.py): one answer typed
 at the prompt is either accepted as an integer in the inclusive range or
 causes a new prompt. The blocking read and the re-prompt are not modelled.
 */
module Prompt {
  import opened Wrappers
  import opened Decimal

  /** Python's `range(a, b)`, as the sequence of integers it yields. */
  function PyRange(a: int, b: int): (r: seq<int>)
    ensures |r| == if a <= b then b - a else 0
    decreases b - a
  {
    if b <= a then [] else [a] + PyRange(a + 1, b)
  }

  /** `v in range(a, b)` holds exactly when a <= v < b. */
  lemma {:induction false} PyRangeMembers(a: int, b: int, v: int)
    ensures v in PyRange(a, b) <==> a <= v < b
    decreases b - a
  {
    if a < b {
      PyRangeMembers(a + 1, b, v);
    }
  }

  /**
   One answer to the prompt: `Some(v)` when `int(answer)` succeeds and
   `v in range(lo, hi + 1)`; `None` means the program asks again.
   */
  function AcceptAnswer(answer: string, lo: int, hi: int): (r: Option<int>)
    ensures r.Some? <==> Parse(answer).Some? && lo <= Parse(answer).value <= hi
    ensures r.Some? ==> Parse(answer) == Some(r.value)
  {
    match Parse(answer)
    case None => None
    case Some(v) =>
      PyRangeMembers(lo, hi + 1, v);
      if v in PyRange(lo, hi + 1) then Some(v) else None
  }

  /** For the month prompt (1..12): "abc" and "13" are refused, "12" is taken. */
  lemma MonthPromptExamples()
    ensures AcceptAnswer("abc", 1, 12) == None
    ensures AcceptAnswer("13", 1, 12) == None
    ensures AcceptAnswer("12", 1, 12) == Some(12)
  {
    assert !IsDigit("abc"[0]);
    ParseShow(13);
    assert Show(13) == "13";
    ParseShow(12);
    assert Show(12) == "12";
  }
}

=== FILE: reversal.dfy ===
/**
 `reverse_string` (main.py) and the digit reversal `int(reverse_string(n))`
 that `color_of_date` applies to each date field.
 */
module Reversal {
  import opened Wrappers
  import opened Decimal

  /** The two kinds of argument `reverse_string` accepts: a Python `int` or `str`. */
  datatype PyValue = Int(i: int) | Str(s: string)

  /** Python's `s[::-1]`: the same elements, last one first. */
  function Reverse<T>(s: seq<T>): (r: seq<T>)
    ensures |r| == |s|
    ensures forall i :: 0 <= i < |s| ==> r[i] == s[|s| - 1 - i]
  {
    if |s| == 0 then [] else Reverse(s[1..]) + [s[0]]
  }

  /** Reversing twice gives back the original sequence. */
  lemma ReverseInvolution<T>(s: seq<T>)
    ensures Reverse(Reverse(s)) == s
  {
    var r := Reverse(Reverse(s));
    assert forall i :: 0 <= i < |s| ==> r[i] == s[i];
  }

  /** Reversal keeps a digit string a digit string. */
  lemma ReverseDigits(s: string)
    requires AllDigits(s)
    ensures AllDigits(Reverse(s))
  {
    var r := Reverse(s);
    forall i | 0 <= i < |r| ensures IsDigit(r[i]) {
      assert r[i] == s[|s| - 1 - i];
    }
  }

  /**
   `reverse_string(x)`: an `int` in [0, 9] is first given a leading '0';
   any other `int` is rendered with `str`; a `str` is taken as it is.
   The result is the reversed character sequence.
   */
  function ReverseString(x: PyValue): (r: string)
    ensures x.Int? && 0 <= x.i < 10 ==> r == [DigitChar(x.i), '0']
    ensures x.Int? && !(0 <= x.i < 10) ==> Reverse(r) == ShowInt(x.i)
    ensures x.Str? ==> Reverse(r) == x.s
  {
    match x
    case Int(i) =>
      var res := if 0 <= i < 10 then "0" + ShowInt(i) else ShowInt(i);
      ReverseInvolution(res);
      Reverse(res)
    case Str(s) =>
      ReverseInvolution(s);
      Reverse(s)
  }

  /** The string `reverse_string` gives for a non-negative integer is all digits. */
  lemma ReverseStringOfNatIsDigits(n: nat)
    ensures 0 < |ReverseString(Int(n))|
    ensures AllDigits(ReverseString(Int(n)))
  {
    if n >= 10 {
      ReverseInvolution(ReverseString(Int(n)));
      ReverseDigits(Show(n));
    }
  }

  /**
   `int(reverse_string(n))` for a non-negative integer `n`; the parse never
   fails there, since the reversed string consists of digits only.
   */
  function ReverseInt(n: nat): (r: nat)
    ensures Parse(ReverseString(Int(n))) == Some(r)
  {
    ReverseStringOfNatIsDigits(n);
    Value(ReverseString(Int(n)))
  }

  /** On a negative integer the reversed string ends in '-', so `int()` fails. */
  lemma ReverseNegativeDoesNotParse(x: int)
    requires x < 0
    ensures Parse(ReverseString(Int(x))) == None
  {
    var r := ReverseString(Int(x));
    ReverseInvolution(r);
    assert r[|r| - 1] == ShowInt(x)[0] == '-';
  }

  /** For n in [0, 99], `reverse_string` yields the units digit, then the tens digit. */
  lemma ReverseStringTwoDigits(n: nat)
    requires n < 100
    ensures ReverseString(Int(n)) == [DigitChar(n % 10), DigitChar(n / 10)]
  {
    var r := ReverseString(Int(n));
    if 10 <= n {
      ShowIntOfNat(n);
      ShowTwoDigits(n);
      ReverseInvolution(r);
      assert r == Reverse([DigitChar(n / 10), DigitChar(n % 10)]);
    }
  }

  /** The tens and the units digit of `n` swapped, by arithmetic alone. */
  function SwapDigits(n: nat): nat {
    10 * (n % 10) + n / 10
  }

  /** Within [0, 99] the digit reversal swaps the tens and the units digit. */
  lemma ReverseIntTwoDigits(n: nat)
    requires n < 100
    ensures ReverseInt(n) == SwapDigits(n)
  {
    ReverseStringTwoDigits(n);
    ValueOfPair(DigitChar(n % 10), DigitChar(n / 10));
  }

  /** Swapping the two digits of a number below 100 twice restores it. */
  lemma SwapDigitsTwice(n: nat)
    requires n < 100
    ensures SwapDigits(n) < 100 && SwapDigits(SwapDigits(n)) == n
  {
    var a, b := n / 10, n % 10;
    var m := 10 * b + a;
    assert m / 10 == b && m % 10 == a;
  }

  /** The digit reversal keeps a number below 100 below 100. */
  lemma ReverseIntBelow100(n: nat)
    requires n < 100
    ensures ReverseInt(n) < 100
  {
    ReverseIntTwoDigits(n);
  }

  /** The digit reversal maps [0, 99] into itself and undoes itself there. */
  lemma ReverseIntInvolution(n: nat)
    requires n < 100
    ensures ReverseInt(n) < 100
    ensures ReverseInt(ReverseInt(n)) == n
  {
    ReverseIntTwoDigits(n);
    SwapDigitsTwice(n);
    ReverseIntTwoDigits(ReverseInt(n));
  }

  /** Reversing a string argument twice gives the string back. */
  lemma ReverseStringInvolution(s: string)
    ensures ReverseString(Str(ReverseString(Str(s)))) == s
  {
    ReverseInvolution(s);
  }

  /** The examples documented on `reverse_string`. */
  lemma ReverseStringExamples()
    ensures ReverseString(Str("Hiya")) == "ayiH"
    ensures ReverseString(Int(23)) == "32"
    ensures ReverseString(Int(700)) == "007"
    ensures ReverseString(Int(5)) == "50"
    ensures ReverseInt(700) == 7
  {
    ReverseHiya();
    ReverseTwentyThree();
    ReverseSevenHundred();
  }

  lemma ReverseHiya()
    ensures ReverseString(Str("Hiya")) == "ayiH"
  {
    ReverseInvolution("ayiH");
    assert Reverse("ayiH") == "Hiya";
  }

  lemma ReverseTwentyThree()
    ensures ReverseString(Int(23)) == "32"
  {
    assert Show(23) == "23";
    ReverseInvolution("32");
    assert Reverse("32") == "23";
  }

  /** 700 reverses to "007", which `int()` reads as 7. */
  lemma ReverseSevenHundred()
    ensures ReverseString(Int(700)) == "007"
    ensures ReverseInt(700) == 7
  {
    ReverseSevenHundredString();
    ValueOfDoubleZeroSeven();
  }

  lemma ReverseSevenHundredString()
    ensures ReverseString(Int(700)) == "007"
  {
    assert Show(700) == "700";
    ReverseInvolution("007");
    assert Reverse("007") == "700";
  }

  lemma ValueOfDoubleZeroSeven()
    ensures Parse("007") == Some(7)
  {
    assert "007"[..2] == "00";
    assert "00"[..1] == "0";
    assert "0"[..0] == "";
  }
}

=== FILE: wrappers.dfy ===
/** Failure-compatible optional values, used where the program would raise. */
module Wrappers {

  /** `None` stands for a Python exception (a `ValueError` from `int()`, say). */
  datatype Option<+T> = None | Some(value: T) {

    predicate IsFailure() {
      None?
    }

    function PropagateFailure<U>(): Option<U>
      requires None?
    {
      None
    }

    function Extract(): T
      requires Some?
    {
      value
    }
  }
}
